=== FILE: README.md ===
# QR widget: content formatting, recolouring, layout and the per-type cache

This project is a Dafny model of the logic inside the `QRGenerator` class of a
browser QR-code widget (`script.js`). The widget lets the user type free text, a
Peruvian national ID (DNI) or a WhatsApp number and message. It formats that
input into the string to encode and draws the QR image. It can recolour the
dark modules with a gradient and pad the image with captions. The last image
of each content type is cached so that switching types brings it back.

An external library does the QR encoding and another does the camera decoding.
Here they are parameters or left out. The model covers:

- `strings.dfy` (module `Strings`): JavaScript `trim`, the `\D` strip, `slice`
  and `replace('+', '')` on strings. A string is a `seq<char>`; for text in
  the Basic Multilingual Plane its length is JavaScript's `length`.
- `sanitize.dfy` (module `Sanitize`): `validateDNI` and `validateWhatsAppNumber`,
  the edit-time sanitizers.
- `content.dfy` (module `Content`): `getQRContent`, the length gate of
  `generateQR`, the `wa.me` link with a reader for it, and `isWhatsApp`.
- `formfacts.dfy` (module `FormFacts`): what the formatter yields on forms as
  the sanitizers leave them, plus worked examples.
- `colour.dfy` (module `Colour`): `hexToRgb` and a `#rrggbb` writer.
- `gradient.dfy` (module `Gradient`): the byte loop of `applyGradientEffect`.
- `branding.dfy` (module `Branding`): the canvas arithmetic of `addBranding`.
- `widget.dfy` (module `Widget`): the widget state, the input handlers,
  `generateQR`, `displayQR`, and the `qrStorage` cache kept by
  `saveCurrentQRData`, `restoreQRData`, `switchQRType` and `clearQR`.

Parameters stand for the code that is not modelled:

- `encodeURIComponent` is the `enc` parameter.
- The data URL of a finished render, or its failure, is the `render` parameter
  of `GenerateQR`.
- The rounded floating-point gradient colour of a pixel is the `shade`
  parameter of `Recolour`.

Behaviour of the code a reader may not expect:

- `url` and `email` content is `''`, not the trimmed input.
- The WhatsApp check is `number.length < minLength`, a minimum and not an exact
  count. Changing the country does not sanitize the number again, so a
  ten-digit number still formats under a nine-digit code
  (`Widget.LongNumberPassesAfterCountryChange`).
- Only the first `+` of the country code is removed.
- The gradient ratio `sqrt((x/w)^2 + (y/h)^2)` reaches about √2, so it
  extrapolates past the end colour. Nothing is claimed about the colours at
  the extreme positions.
- A text longer than 1000 characters is refused, not truncated.
- The preset table is a plain object, so a gradient name it lacks but every
  object inherits (`toString`, `__proto__`, ...) finds a truthy value without
  `start` or `end`; the recolouring then throws on the first black pixel.

## Model

| member | source | states |
|---|---|---|
| Strings.TrimSound | script.js:646 | what `trim` returns has no blank at either end, and it is the input with a blank prefix and a blank suffix cut off |
| Strings.TrimUnique | script.js:646 | the converse: any blank-framed piece with no edge blank is the trim, so the two lemmas characterise `trim` |
| Strings.TrimIdempotent | script.js:649 | trimming twice is trimming once |
| Strings.DigitsOfConcat | script.js:531 | stripping non-digits distributes over concatenation, so the digits keep their order |
| Strings.DigitsOfFixed | script.js:531 | stripping non-digits leaves a string unchanged exactly when it is all digits |
| Strings.DigitsOfSingle | script.js:531 | a single digit is kept and a single non-digit is dropped; with the concatenation law this determines the strip |
| Strings.StripNonDigits | script.js:531 | the character-by-character scan of `replace(/\D/g, '')` computes the digit subsequence, which is all digits |
| Strings.RemoveFirstPlusSpec | script.js:666 | `replace('+', '')` cuts out the first `+` and keeps every other character in order; without a `+` the string is unchanged |
| Sanitize.ValidateDni | script.js:530-537 | the ID field after an edit is all digits, at most 8 long, a prefix of the input's digits, and of length min(8, number of digits) |
| Sanitize.ValidateDniIdempotent | script.js:530-537 | sanitizing the ID field a second time changes nothing |
| Sanitize.ValidateDniAppend | script.js:530-537 | sanitizing typed text followed by more keeps the first 8 of the digits of both parts, in order |
| Sanitize.ValidateDniFixedPoints | script.js:530-537 | the sanitizer leaves a field as it is exactly when it holds at most 8 digits and nothing else |
| Sanitize.PhoneDigits | script.js:553-560 | the phone length bound is 10 or 9 |
| Sanitize.ValidateWhatsAppNumber | script.js:550-566 | the phone field after an edit is all digits, at most PhoneDigits(code) long (10 for +1, +52 and +54, else 9), a prefix of the input's digits, of length min(bound, number of digits) |
| Sanitize.ValidateWhatsAppNumberIdempotent | script.js:550-566 | sanitizing the phone field again under the same code changes nothing |
| Sanitize.ValidateWhatsAppNumberTwoCountries | script.js:550-566 | sanitizing under one code and then another keeps the first min(bound a, bound b) digits |
| Content.WhatsAppContent | script.js:652-669 | the WhatsApp content is non-empty exactly when the trimmed number has at least PhoneDigits(code) characters, and it then starts with `https://wa.me/` |
| Content.WhatsAppContentOfDigits | script.js:652-669 | a digit-only number long enough for its code yields `https://wa.me/` + code without its first `+` + number, followed by `?text=` + enc(trimmed message) exactly when that encoding is non-empty |
| Content.GetQRContent | script.js:643-674 | only text, WhatsApp and ID types produce content (url and email give `''`); the text content is a piece of the text field with a blank prefix and suffix cut off and no edge blank, i.e. its trim; the ID content is the trimmed field when that has exactly 8 characters and `''` otherwise |
| Content.TextContentIsTrimmed | script.js:645-646 | a text field made of blanks, a piece without edge blanks, and blanks yields exactly that piece |
| Content.CheckContent | script.js:679-696 | content passes the gate exactly when it is non-empty and at most 1000 characters long; empty content is the no-content case |
| Content.ParseWaLinkSound | script.js:669 | a link that reads back is the link of what was read |
| Content.ParseWaLinkComplete | script.js:669 | a link built from a full number without `?` reads back as that number and encoded message |
| Content.WhatsAppContentRoundTrip | script.js:652-669 | for a code and number without `?`, the WhatsApp content reads back as (code without its first `+` + trimmed number, enc(trimmed message) or `''`) |
| Content.WaLinkIsWhatsApp | script.js:875-877 | every link the formatter builds from a number starting with a digit is classified as a WhatsApp link |
| FormFacts.DniContentOfSanitizedForm | script.js:648-650 | with a sanitized ID field, the ID content is the field itself when it has exactly 8 digits and `''` otherwise |
| FormFacts.WhatsAppContentOfSanitizedForm | script.js:652-669 | with a sanitized phone field, WhatsApp content exists exactly when the field has at least PhoneDigits(code) digits, and it reads back as the code digits, the whole field and the encoded message |
| FormFacts.WhatsAppExample | script.js:652-669 | +51, 987654321 and "Hola" give `https://wa.me/51987654321?text=Hola` |
| Colour.HexToRgb | script.js:1073-1080 | the parse succeeds exactly for an optional `#` and six hex digits in either case; each component is the value of its hex pair, a byte |
| Colour.HexRoundTrip | script.js:1073-1080 | a colour written as `#rrggbb` parses back to the same colour |
| Colour.HexNormalises | script.js:1073-1080 | an accepted string parses to a colour whose `#rrggbb` form is its six digits in lower case: only the `#` and the case are lost |
| Gradient.Clamp | script.js:896-898 | storing into the `Uint8ClampedArray` keeps a value exactly when it is 0..255; below that gives 0, above gives 255 |
| Gradient.LookupPreset | script.js:884 | the lookup finds the table's own entry for a table name, an inherited `Object.prototype` property for such a name, and nothing otherwise |
| Gradient.Recolour | script.js:890-900 | alpha bytes and all bytes of pixels whose R, G and B are not all 0 are unchanged; the R, G and B bytes of a black pixel get the clamped shade of its column and row |
| Gradient.ApplyGradientEffect | script.js:879-903 | a name with no entry, own or inherited, and a solid preset leave the buffer untouched; it fails exactly when a black pixel is met and the lookup gave a gradient whose colour does not parse, or an inherited `Object.prototype` property (whose `start` and `end` are undefined); otherwise only black pixels' colour bytes change, to the clamped shade |
| Gradient.PresetColoursParse | script.js:4-11 | every colour in the widget's preset table parses, so its own presets never fail |
| Branding.CaptionLayout | script.js:905-954 | the QR image fits in the canvas and is centred horizontally; a caption baseline exists exactly when its trimmed caption is non-empty |
| Branding.NoCaptionKeepsCanvas | script.js:916-920 | with both trimmed captions empty the canvas keeps the QR image's size |
| Branding.CaptionGeometry | script.js:920-947 | with a caption the canvas is w + 80 by h + 80 + 30 per caption; the QR image is at x = 40 and y = 40 + 30 when a top caption is present; the captions sit between the padding and the image |
| Widget.Initial | script.js:2-50 | the constructor's state: the type is text, the current image is null, the display is empty, every slot is (`''`, null) so none holds an image, and the invariant holds |
| Widget.DisplayText | script.js:789-795 | content of at most 50 characters is shown whole; longer content shows its first 50 characters followed by `...`, 53 characters in all |
| Widget.DisplayTextUnchanged | script.js:789-795 | the display equals the content exactly when it has at most 50 characters, or exactly 53 whose last three are `...` |
| Widget.ClearQRDisplay | script.js:507-528 | the current image becomes null and the content display empty; the cache, form and type are kept |
| Widget.SaveCurrentQRData | script.js:422-430 | when the current type formats to content and an image is current, the current slot becomes (content, image); otherwise the cache is unchanged; nothing else changes |
| Widget.RestoreQRData | script.js:432-452 | the current image becomes the slot's image exactly when the slot has both content and image, and the display then shows the slot's content cut by `DisplayText`; otherwise it is null and the display is empty |
| Widget.SwitchQRType | script.js:408-452 | switching saves the old type's slot as `saveCurrentQRData` does, sets the type, keeps the form and every other slot; the current image becomes the new type's stored image, with its content shown cut by `DisplayText`, when that slot has content and image, and otherwise null with an empty display |
| Widget.DisplayQR | script.js:780-795 | the current slot becomes (content, current image), no other slot changes, and the display shows the content truncated by `DisplayText` |
| Widget.GenerateQR | script.js:676-720 | an image is rendered exactly when the content is 1..1000 characters long and the render succeeds, and it is then stored in the current slot only, with the display showing the content cut by `DisplayText`; empty content clears the display; too-long content or a failed render changes nothing |
| Widget.AutoGenerateFire | script.js:631-640 | when the timer fires with no content the display is cleared; with content it runs `generateQR`: content of at most 1000 characters with a successful render becomes the current slot and image, while too-long content or a failed render changes nothing |
| Widget.ClearQR | script.js:1278-1298 | the current slot is reset and the current image is null; the current type's fields (text; ID; number and message) become empty, url and email leave the form as it is; other slots, the other types' fields, the country code and the captions are unchanged |
| Widget.ClearQREmptiesContent | script.js:1284-1297 | after clearing, the current type formats to `''` |
| Widget.InputText | script.js:60-63 | an edit of the text field stores the value as typed and changes nothing else |
| Widget.InputDni | script.js:65-69 | an edit of the ID field stores the sanitized value, changes nothing else and keeps the invariant |
| Widget.InputNumber | script.js:71-74 | an edit of the phone field stores it sanitized under the selected code and changes nothing else |
| Widget.InputMessage | script.js:75 | an edit of the message field stores it as typed and changes nothing else |
| Widget.ChangeCountry | script.js:76-79 | a change of country stores the new code and changes nothing else; in particular the phone field is not sanitized again |
| Widget.InputCaptions | script.js:92-93 | an edit of a caption field stores it as typed and changes nothing else |
| Widget.SwitchAwayAndBack | script.js:408-452 | a type whose form has content while an image is current gets that image back after switching to any type and back |
| Widget.SwitchKeepsImages | script.js:408-452 | switching never drops a stored image |
| Widget.LongNumberPassesAfterCountryChange | script.js:76-79 | 10 digits typed under +1 are kept after switching to +51, and the WhatsApp content is then the link with all 10 digits |
| Widget.ShortDniRendersNothing | script.js:648-650 | a 7-digit ID renders nothing |

## Left out

- DOM creation, event binding, modals, notifications, tooltips, the test
  section and its buttons: user interface with no state the model needs.
- The counters `updateDNICount`, `updateWhatsAppCount` and `updateCharCount`, and
  `updateWhatsAppPlaceholder`: they only set display text.
- The 500 ms debounce of `autoGenerate`: only the callback that runs when the
  timer fires is modelled, as `Widget.AutoGenerateFire`.
- The camera scanner and its polling loop: media input and an external decoder.
- `QRCode.toCanvas` and `canvas.toDataURL`: the external encoder. They are the
  `render` parameter of `Widget.GenerateQR`.
- `getQROptions`: its dark colour choice only feeds the external encoder.
- `encodeURIComponent`: the `enc` parameter. Its URIError on lone surrogates is
  not modelled.
- `isURL` and `isEmail`: `isURL` depends on the browser's `URL` parser;
  `isEmail` is a plain regular expression. Both only decide what the test
  section shows and does (open a link, open a `mailto:` link or show a
  modal, and which validation message appears).
- The floating-point gradient colour (`Math.sqrt`, `Math.round`): the `shade`
  parameter. The model stores its integer result through the explicit
  `Uint8ClampedArray` clamp.
- Gradient.Recolour: the image height is used only inside the floating-point
  ratio, so the model requires only whole pixels and a positive width for a
  non-empty buffer.
- The icons drawn by `addWhatsAppIcon` and `addDNIIcon`, and the caption text
  rendering: canvas drawing only. `Branding.CaptionLayout` gives only the
  sizes, the image position and the caption baselines.
- Clipboard, `window.open`, the download file name built from `Date.now()`,
  theme toggling and `localStorage`: side-effecting browser interfaces.
- Widget.RestoreQRData: the image reload in `img.onload` is asynchronous. The
  model shows the stored content at once.
- UTF-16 lengths beyond the Basic Multilingual Plane: a character such as
  U+1F600 is one `char` in the model but two code units in JavaScript. So the
  1000-character gate, the 50-character display cut and the 8-character ID
  check count it once where the code counts it twice. For example, 600 such
  characters are refused by the code (length 1200) but pass the model's gate.
  Lone surrogates cannot be written as a `char`.

=== FILE: branding.dfy ===
/** The layout arithmetic of `addBranding`: when a top or bottom caption is
    given, the QR image is copied onto a larger white canvas with a fixed
    padding and one text row per caption. */
module Branding {
  import opened Strings

  const Padding: nat := 40
  const CaptionRow: nat := 30

  /** Baseline offsets of the caption text, below the top padding and below
      the QR image respectively. */
  const TopBaselineOffset: nat := 20
  const BottomBaselineOffset: nat := 25

  /** The final canvas size, where the QR image is drawn, and the baseline
      row of each caption drawn (captions are centred horizontally). */
  datatype Layout = Layout(
    width: nat,
    height: nat,
    qrX: nat,
    qrY: nat,
    topBaseline: Option<nat>,
    bottomBaseline: Option<nat>)

  function CaptionLayout(qrWidth: nat, qrHeight: nat, top: Str, bottom: Str): (l: Layout)
    ensures l.qrX + qrWidth <= l.width && l.qrY + qrHeight <= l.height
    ensures l.width - (l.qrX + qrWidth) == l.qrX
    ensures l.topBaseline.Some? <==> Trim(top) != []
    ensures l.bottomBaseline.Some? <==> Trim(bottom) != []
  {
    var t := Trim(top);
    var b := Trim(bottom);
    if t == [] && b == [] then
      Layout(qrWidth, qrHeight, 0, 0, None, None)
    else
      var topRow := if t != [] then CaptionRow else 0;
      var bottomRow := if b != [] then CaptionRow else 0;
      var qrY := Padding + topRow;
      Layout(qrWidth + 2 * Padding,
             qrHeight + 2 * Padding + topRow + bottomRow,
             Padding, qrY,
             if t != [] then Some(Padding + TopBaselineOffset) else None,
             if b != [] then Some(qrY + qrHeight + BottomBaselineOffset) else None)
  }

  /** Without a caption the canvas keeps the QR image as it is. */
  lemma NoCaptionKeepsCanvas(qrWidth: nat, qrHeight: nat, top: Str, bottom: Str)
    requires Trim(top) == [] && Trim(bottom) == []
    ensures var l := CaptionLayout(qrWidth, qrHeight, top, bottom);
            l.width == qrWidth && l.height == qrHeight && l.qrX == 0 && l.qrY == 0
  {
  }

  /** With a caption, the QR image sits 40 pixels in from the left, right and
      bottom edges of the padded area; each caption takes a 30-pixel row, the
      top one above the image and the bottom one below it. */
  lemma CaptionGeometry(qrWidth: nat, qrHeight: nat, top: Str, bottom: Str)
    requires Trim(top) != [] || Trim(bottom) != []
    ensures var l := CaptionLayout(qrWidth, qrHeight, top, bottom);
            var topRow := if Trim(top) != [] then CaptionRow else 0;
            var bottomRow := if Trim(bottom) != [] then CaptionRow else 0;
            && l.width == qrWidth + 80
            && l.height == qrHeight + 80 + topRow + bottomRow
            && l.qrX == 40
            && l.qrY == 40 + topRow
            && l.height - (l.qrY + qrHeight) == Padding + bottomRow
            && (l.topBaseline.Some? ==> Padding < l.topBaseline.value < l.qrY)
            && (l.bottomBaseline.Some? ==>
                  l.qrY + qrHeight < l.bottomBaseline.value < l.height - Padding)
  {
  }
}

=== FILE: colour.dfy ===
/** Colours: `hexToRgb`, which reads `#rrggbb` (the `#` optional, the
    digits in either case) into three bytes or fails with null. */
module Colour {
  import opened Strings

  type byte = x: int | 0 <= x < 256

  datatype Rgb = Rgb(r: byte, g: byte, b: byte)

  /** A character of the class `[a-f\d]` under the `i` flag. */
  predicate IsHexDigit(c: char) {
    '0' <= c <= '9' || 'a' <= c <= 'f' || 'A' <= c <= 'F'
  }

  predicate AllHex(s: Str) {
    forall i :: 0 <= i < |s| ==> IsHexDigit(s[i])
  }

  function HexValue(c: char): (v: nat)
    requires IsHexDigit(c)
    ensures v < 16
  {
    if '0' <= c <= '9' then c as int - '0' as int
    else if 'a' <= c <= 'f' then c as int - 'a' as int + 10
    else c as int - 'A' as int + 10
  }

  /** The lower-case hex digit of a value below 16. */
  function HexChar(v: nat): (c: char)
    requires v < 16
    ensures IsHexDigit(c) && HexValue(c) == v
    ensures !('A' <= c <= 'F')
  {
    "0123456789abcdef"[v]
  }

  /** `parseInt(p, 16)` of a two-digit hex string. */
  function PairValue(s: Str, i: nat): byte
    requires i + 2 <= |s| && IsHexDigit(s[i]) && IsHexDigit(s[i + 1])
  {
    16 * HexValue(s[i]) + HexValue(s[i + 1])
  }

  /** The strings `/^#?([a-f\d]{2})([a-f\d]{2})([a-f\d]{2})$/i` accepts. */
  predicate IsHexColour(s: Str) {
    (|s| == 7 && s[0] == '#' && AllHex(s[1..])) || (|s| == 6 && AllHex(s))
  }

  /** `hexToRgb`. */
  function HexToRgb(s: Str): (c: Option<Rgb>)
    ensures c.Some? <==> IsHexColour(s)
    ensures c.Some? ==> |s| >= 6
    ensures c.Some? ==> var d := s[|s| - 6..];
              c.value == Rgb(PairValue(d, 0), PairValue(d, 2), PairValue(d, 4))
  {
    var digits := if |s| > 0 && s[0] == '#' then s[1..] else s;
    if |digits| == 6 && AllHex(digits) then
      assert digits == s[|s| - 6..];
      Some(Rgb(PairValue(digits, 0), PairValue(digits, 2), PairValue(digits, 4)))
    else
      None
  }

  /** The inverse direction: a colour written as `#rrggbb` in lower case. */
  function RgbToHex(c: Rgb): (s: Str)
    ensures |s| == 7 && s[0] == '#'
  {
    ['#', HexChar(c.r / 16), HexChar(c.r % 16),
          HexChar(c.g / 16), HexChar(c.g % 16),
          HexChar(c.b / 16), HexChar(c.b % 16)]
  }

  function LowerHex(c: char): char
    requires IsHexDigit(c)
  {
    if 'A' <= c <= 'F' then (c as int + 32) as char else c
  }

  /** Writing a colour and reading it back gives the same colour. */
  lemma HexRoundTrip(c: Rgb)
    ensures HexToRgb(RgbToHex(c)) == Some(c)
  {
    var s := RgbToHex(c);
    assert AllHex(s[1..]);
    assert s[|s| - 6..] == s[1..];
  }

  lemma HexValueLower(c: char)
    requires IsHexDigit(c)
    ensures IsHexDigit(LowerHex(c)) && HexValue(LowerHex(c)) == HexValue(c)
    ensures HexChar(HexValue(c)) == LowerHex(c)
  {
  }

  /** Reading an accepted string and writing the colour back gives its six
      digits in lower case behind a `#`: the parse loses only the optional
      `#` and the case of the letters. */
  lemma HexNormalises(s: Str)
    requires IsHexColour(s)
    ensures |s| >= 6
    ensures var d := s[|s| - 6..];
            RgbToHex(HexToRgb(s).value)
            == ['#', LowerHex(d[0]), LowerHex(d[1]), LowerHex(d[2]),
                     LowerHex(d[3]), LowerHex(d[4]), LowerHex(d[5])]
  {
    var d := s[|s| - 6..];
    assert AllHex(d);
    forall k | 0 <= k < 6 ensures HexChar(HexValue(d[k])) == LowerHex(d[k]) {
      HexValueLower(d[k]);
    }
    var c := HexToRgb(s).value;
    assert c.r / 16 == HexValue(d[0]) && c.r % 16 == HexValue(d[1]);
    assert c.g / 16 == HexValue(d[2]) && c.g % 16 == HexValue(d[3]);
    assert c.b / 16 == HexValue(d[4]) && c.b % 16 == HexValue(d[5]);
  }
}

=== FILE: content.dfy ===
/** The content formatter (`getQRContent`): from the selected content type
    and the form fields to the exact string that is encoded, plus the length
    gate of `generateQR` and the WhatsApp-link classifier `isWhatsApp`. */
module Content {
  import opened Strings
  import opened Sanitize

  datatype ContentType = Text | WhatsApp | Dni | Url | Email

  /** The values of the form inputs. `countryCode` is the value of the
      country selector, e.g. "+51". */
  datatype Form = Form(
    text: Str,
    dni: Str,
    countryCode: Str,
    number: Str,
    message: Str,
    brandTop: Str,
    brandBottom: Str)

  /** `encodeURIComponent`, a browser function the model does not define. */
  type UriEncoder = Str -> Str

  /** Longest content `generateQR` accepts. */
  const MaxContentLength: nat := 1000

  const WaPrefix: Str := "https://wa.me/"
  const TextParam: Str := "?text="

  /** The deep link for a full number (country digits followed by the phone
      digits) and an already encoded message; the query is present only for
      a non-empty encoded message. */
  function WaLink(fullNumber: Str, encoded: Str): Str {
    WaPrefix + fullNumber + (if encoded != [] then TextParam + encoded else [])
  }

  /** The WhatsApp branch of `getQRContent`. */
  function WhatsAppContent(code: Str, number: Str, message: Str, enc: UriEncoder): (r: Str)
    ensures r != [] ==> StartsWith(r, WaPrefix)
    ensures r != [] <==> |Trim(number)| >= PhoneDigits(code)
  {
    var n := Trim(number);
    var m := Trim(message);
    if n == [] then []
    else if |n| < PhoneDigits(code) then []
    else
      var encoded := if m != [] then enc(m) else [];
      WaLinkStarts(RemoveFirstPlus(code) + n, encoded);
      WaLink(RemoveFirstPlus(code) + n, encoded)
  }

  lemma WaLinkStarts(fullNumber: Str, encoded: Str)
    ensures StartsWith(WaLink(fullNumber, encoded), WaPrefix)
  {
    var tail := fullNumber + (if encoded != [] then TextParam + encoded else []);
    assert WaLink(fullNumber, encoded) == WaPrefix + tail;
    PrefixStarts(WaPrefix, tail);
  }

  /** `getQRContent` for the given type; `url` and `email` fall to the
      default branch. */
  function GetQRContent(t: ContentType, f: Form, enc: UriEncoder): (r: Str)
    ensures r != [] ==> t == Text || t == WhatsApp || t == Dni
    ensures t == Dni && r != [] ==> |r| == DniLength
    ensures t == Text ==> NoEdgeBlank(r) && IsBlankFramed(r, f.text)
    ensures t == Dni ==> r == (if |Trim(f.dni)| == DniLength then Trim(f.dni) else [])
  {
    match t
    case Text =>
      TrimSound(f.text);
      Trim(f.text)
    case Dni =>
      var d := Trim(f.dni);
      if |d| == DniLength then d else []
    case WhatsApp => WhatsAppContent(f.countryCode, f.number, f.message, enc)
    case Url => []
    case Email => []
  }

  /** The text type yields the text field with its blank frame cut off:
      whatever blanks surround a piece without edge blanks, that piece is
      the content. */
  lemma TextContentIsTrimmed(f: Form, enc: UriEncoder, before: Str, piece: Str, after: Str)
    requires AllBlank(before) && AllBlank(after) && NoEdgeBlank(piece)
    requires f.text == before + piece + after
    ensures GetQRContent(Text, f, enc) == piece
  {
    TrimUnique(before, piece, after);
  }

  /** The outcome of the checks at the top of `generateQR`. */
  datatype Gate = NoContent | TooLong | Ready(content: Str)

  function CheckContent(content: Str): (g: Gate)
    ensures g.Ready? <==> 0 < |content| <= MaxContentLength
    ensures g.Ready? ==> g.content == content
    ensures g == NoContent <==> content == []
  {
    if content == [] then NoContent
    else if |content| > MaxContentLength then TooLong
    else Ready(content)
  }

  /** A phone field of digits, long enough for its code, formats to the link
      of the code without its first `+` followed by the whole field. */
  lemma WhatsAppContentOfDigits(code: Str, number: Str, message: Str, enc: UriEncoder)
    requires AllDigits(number) && |number| >= PhoneDigits(code)
    ensures WhatsAppContent(code, number, message, enc)
            == WaLink(RemoveFirstPlus(code) + number,
                      if Trim(message) != [] then enc(Trim(message)) else [])
  {
    TrimDigits(number);
  }

  /** Reads a deep link back into its full number and encoded message. */
  function ParseWaLink(s: Str): Option<(Str, Str)> {
    if !StartsWith(s, WaPrefix) then None
    else
      var rest := s[|WaPrefix|..];
      match IndexOf(rest, '?')
      case None => Some((rest, []))
      case Some(k) =>
        var query := rest[k..];
        if |query| > |TextParam| && StartsWith(query, TextParam)
        then Some((rest[..k], query[|TextParam|..]))
        else None
  }

  /** A link read back is the link of what was read. */
  lemma ParseWaLinkSound(s: Str)
    ensures ParseWaLink(s).Some? ==> WaLink(ParseWaLink(s).value.0, ParseWaLink(s).value.1) == s
  {
    if ParseWaLink(s).Some? {
      var rest := s[|WaPrefix|..];
      StartsWithSplit(s, WaPrefix);
      match IndexOf(rest, '?')
      case None =>
        assert WaLink(rest, []) == WaPrefix + rest + [];
      case Some(k) =>
        var encoded := rest[k..][|TextParam|..];
        assert encoded != [];
        LinkSplit(WaPrefix, rest, k, TextParam);
    }
  }

  lemma StartsWithSplit(s: Str, p: Str)
    requires StartsWith(s, p)
    ensures s == p + s[|p|..]
  {
  }

  /** A string whose part after `k` starts with `t` is its head, `t`, and
      what follows `t`. */
  lemma LinkSplit(p: Str, rest: Str, k: nat, t: Str)
    requires k <= |rest| && StartsWith(rest[k..], t)
    ensures p + rest == p + rest[..k] + (t + rest[k..][|t|..])
  {
    StartsWithSplit(rest[k..], t);
    assert rest == rest[..k] + rest[k..];
  }

  /** The link can be read back whenever the full number holds no `?`. */
  lemma ParseWaLinkComplete(fullNumber: Str, encoded: Str)
    requires '?' !in fullNumber
    ensures ParseWaLink(WaLink(fullNumber, encoded)) == Some((fullNumber, encoded))
  {
    var s := WaLink(fullNumber, encoded);
    var q: Str := if encoded != [] then TextParam + encoded else [];
    var rest := fullNumber + q;
    assert s == WaPrefix + rest;
    assert StartsWith(s, WaPrefix);
    assert s[|WaPrefix|..] == rest;
    if encoded != [] {
      IndexOfAfter(fullNumber, q, '?');
      assert rest[..|fullNumber|] == fullNumber;
      assert rest[|fullNumber|..] == q;
      assert q[|TextParam|..] == encoded;
    } else {
      assert rest == fullNumber;
    }
  }

  lemma IndexOfAfter(a: Str, b: Str, c: char)
    requires c !in a && b != [] && b[0] == c
    ensures IndexOf(a + b, c) == Some(|a|)
  {
    assert (a + b)[|a|] == c;
    assert (a + b)[..|a|] == a;
  }

  /** Removing a `+` adds no character. */
  lemma RemoveFirstPlusKeeps(code: Str, c: char)
    requires c !in code
    ensures c !in RemoveFirstPlus(code)
  {
    RemoveFirstPlusSpec(code);
    match IndexOf(code, '+')
    case None =>
    case Some(i) =>
      assert RemoveFirstPlus(code) == code[..i] + code[i + 1..];
      assert c !in code[..i] && c !in code[i + 1..];
  }

  /** Trimming adds no character. */
  lemma TrimKeeps(s: Str, c: char)
    requires c !in s
    ensures c !in Trim(s)
  {
    assert Trim(s) == s[TrimOffset(s)..TrimEndOffset(s)];
  }

  /** The WhatsApp content of a form holds the country digits with the phone
      number and, in the query, the encoded trimmed message; it reads back as
      such for any country code and number without `?`. */
  lemma WhatsAppContentRoundTrip(code: Str, number: Str, message: Str, enc: UriEncoder)
    requires '?' !in code && '?' !in number
    requires |Trim(number)| >= PhoneDigits(code)
    ensures ParseWaLink(WhatsAppContent(code, number, message, enc))
            == Some((RemoveFirstPlus(code) + Trim(number),
                     if Trim(message) != [] then enc(Trim(message)) else []))
  {
    RemoveFirstPlusKeeps(code, '?');
    TrimKeeps(number, '?');
    var full := RemoveFirstPlus(code) + Trim(number);
    ParseWaLinkComplete(full, if Trim(message) != [] then enc(Trim(message)) else []);
  }

  /** ASCII case-insensitive match of one character against a lower-case
      pattern character, as under the `i` flag. */
  predicate MatchesFolded(c: char, p: char) {
    c == p || ('a' <= p <= 'z' && c as int == p as int - 32)
  }

  predicate MatchesFoldedAt(s: Str, i: nat, p: Str) {
    i + |p| <= |s| && forall k :: 0 <= k < |p| ==> MatchesFolded(s[i + k], p[k])
  }

  /** `isWhatsApp`: `/wa\.me\/\d+/i` or `/whatsapp\.com\/send/i` matches
      somewhere in the text. */
  predicate IsWhatsApp(s: Str) {
    (exists i :: 0 <= i < |s| && MatchesFoldedAt(s, i, "wa.me/") && i + 6 < |s| && IsDigit(s[i + 6]))
    || (exists i :: 0 <= i < |s| && MatchesFoldedAt(s, i, "whatsapp.com/send"))
  }

  /** Every link the formatter builds from a numeric full number is
      recognised as a WhatsApp link by the classifier. */
  lemma WaLinkIsWhatsApp(fullNumber: Str, encoded: Str)
    requires fullNumber != [] && IsDigit(fullNumber[0])
    ensures IsWhatsApp(WaLink(fullNumber, encoded))
  {
    var s := WaLink(fullNumber, encoded);
    assert s[..|WaPrefix|] == WaPrefix;
    assert s[14] == fullNumber[0];
    assert MatchesFoldedAt(s, 8, "wa.me/") by {
      forall k | 0 <= k < 6 ensures MatchesFolded(s[8 + k], "wa.me/"[k]) {
        assert s[8 + k] == WaPrefix[8 + k];
      }
    }
  }
}

=== FILE: formfacts.dfy ===
/** Facts about the formatter on forms as the sanitizers leave them, and
    worked examples. */
module FormFacts {
  import opened Strings
  import opened Sanitize
  import opened Content

  /** The ID and phone fields as their sanitizers leave them. */
  predicate SanitizedForm(f: Form) {
    && AllDigits(f.dni) && |f.dni| <= DniLength
    && AllDigits(f.number) && |f.number| <= 10
  }

  /** With the ID field as its sanitizer leaves it, the ID type formats to
      the field itself exactly when it holds eight digits, and to nothing
      otherwise. */
  lemma DniContentOfSanitizedForm(f: Form, enc: UriEncoder)
    requires SanitizedForm(f)
    ensures var r := GetQRContent(Dni, f, enc);
            && r == (if |f.dni| == DniLength then f.dni else [])
            && AllDigits(r)
  {
    var d := Trim(f.dni);
    assert GetQRContent(Dni, f, enc) == (if |d| == DniLength then d else []);
    TrimDigits(f.dni);
  }

  /** With the phone field as its sanitizer leaves it, the WhatsApp type
      formats to a link exactly when the field has at least PhoneDigits of
      the selected code, and the link reads back as the code without its
      `+`, the whole field, and the encoded trimmed message. */
  lemma WhatsAppContentOfSanitizedForm(f: Form, enc: UriEncoder)
    requires SanitizedForm(f)
    requires '?' !in f.countryCode
    ensures var r := GetQRContent(WhatsApp, f, enc);
            && (r != [] <==> |f.number| >= PhoneDigits(f.countryCode))
            && (r != [] ==>
                  ParseWaLink(r) == Some((RemoveFirstPlus(f.countryCode) + f.number,
                                          if Trim(f.message) != [] then enc(Trim(f.message)) else [])))
  {
    assert GetQRContent(WhatsApp, f, enc) == WhatsAppContent(f.countryCode, f.number, f.message, enc);
    TrimDigits(f.number);
    if |f.number| >= PhoneDigits(f.countryCode) {
      NotInDigits(f.number, '?');
      WhatsAppContentRoundTrip(f.countryCode, f.number, f.message, enc);
    }
  }

  /** A ten-digit number is kept whole under +1. */
  lemma TenDigitsUnderUs()
    ensures ValidateWhatsAppNumber("5551234567", "+1") == "5551234567"
  {
    var digits: Str := "5551234567";
    assert AllDigits(digits);
    DigitsOfFixed(digits);
  }

  /** A ten-digit number formats under +51, whose numbers have nine. */
  lemma UsNumberUnderPeru(f: Form, enc: UriEncoder)
    requires f.countryCode == "+51" && f.number == "5551234567" && f.message == []
    ensures GetQRContent(WhatsApp, f, enc) == WaLink("51" + "5551234567", [])
  {
    assert GetQRContent(WhatsApp, f, enc) == WhatsAppContent(f.countryCode, f.number, f.message, enc);
    PeruCode();
    LiteralDigits();
    WhatsAppContentOfDigits("+51", "5551234567", [], enc);
  }

  lemma LiteralDigits()
    ensures AllDigits("5551234567") && AllDigits("987654321")
  {
  }

  lemma PeruCode()
    ensures PhoneDigits("+51") == 9 && RemoveFirstPlus("+51") == "51"
  {
  }

  /** A worked example: code +51, number 987654321 and message "Hola",
      with an encoder that leaves "Hola" as it is. */
  lemma WhatsAppExample(f: Form, enc: UriEncoder)
    requires f.countryCode == "+51" && f.number == "987654321" && f.message == "Hola"
    requires enc("Hola") == "Hola"
    ensures GetQRContent(WhatsApp, f, enc) == "https://wa.me/51987654321?text=Hola"
  {
    assert GetQRContent(WhatsApp, f, enc) == WhatsAppContent(f.countryCode, f.number, f.message, enc);
    PeruCode();
    LiteralDigits();
    HolaIsTrimmed();
    WhatsAppContentOfDigits("+51", "987654321", "Hola", enc);
    HolaLink();
  }

  lemma HolaIsTrimmed()
    ensures Trim("Hola") == "Hola"
  {
    assert [] + "Hola" + [] == "Hola";
    TrimUnique([], "Hola", []);
  }

  lemma HolaLink()
    ensures WaLink("51" + "987654321", "Hola") == "https://wa.me/51987654321?text=Hola"
  {
  }
}

=== FILE: gradient.dfy ===
/** The gradient recolouring of a rendered QR image (`applyGradientEffect`).

    The image is an RGBA byte buffer, four bytes per pixel, row by row. The
    colour a dark pixel receives is computed in floating point from its
    position; the model takes that computation as a parameter and proves
    which bytes may change. */
module Gradient {
  import opened Strings
  import opened Colour

  /** An entry of the preset table: a plain colour or a two-stop gradient. */
  datatype Preset = SolidPreset(colour: Str) | GradientPreset(start: Str, end: Str)

  /** The widget's preset table. */
  const Presets: map<Str, Preset> := map[
    "solid-black" := SolidPreset("#000000"),
    "ocean" := GradientPreset("#667eea", "#764ba2"),
    "sunset" := GradientPreset("#f093fb", "#f5576c"),
    "forest" := GradientPreset("#56ab2f", "#a8e6cf"),
    "fire" := GradientPreset("#ff9a9e", "#fecfef"),
    "royal" := GradientPreset("#667eea", "#764ba2")
  ]

  /** For the start and end colours and a pixel's column and row, the three
      channel values after `Math.round`, before they are stored. */
  type Shade = (Rgb, Rgb, nat, nat) -> (int, int, int)

  /** Storing an integer into a `Uint8ClampedArray`: a value in range is
      kept, one below it becomes 0 and one above it becomes 255. */
  function Clamp(v: int): (b: byte)
    ensures b == v <==> 0 <= v < 256
    ensures v < 0 ==> b == 0
    ensures v >= 256 ==> b == 255
  {
    if v < 0 then 0 else if v > 255 then 255 else v
  }

  /** A buffer of whole pixels, in rows of `width` pixels. The image height
      enters only through the shade. */
  predicate IsImage(data: seq<byte>, width: nat) {
    |data| % 4 == 0 && (|data| > 0 ==> width > 0)
  }

  /** The red, green and blue bytes of the pixel holding byte `j` are all 0. */
  predicate IsBlackAt(data: seq<byte>, j: nat)
    requires |data| % 4 == 0 && j < |data|
  {
    var i := j - j % 4;
    data[i] == 0 && data[i + 1] == 0 && data[i + 2] == 0
  }

  predicate HasBlackPixel(data: seq<byte>)
    requires |data| % 4 == 0
  {
    exists j :: 0 <= j < |data| && IsBlackAt(data, j)
  }

  /** The byte a recoloured dark pixel gets at byte `j` (not an alpha byte). */
  function ShadeByte(shade: Shade, start: Rgb, end: Rgb, width: nat, j: nat): byte
    requires width > 0
  {
    var p := j / 4;
    var c := shade(start, end, p % width, p / width);
    if j % 4 == 0 then Clamp(c.0) else if j % 4 == 1 then Clamp(c.1) else Clamp(c.2)
  }

  /** The bytes `i` to `i + 3` of a buffer form one pixel. */
  lemma SamePixel(data: seq<byte>, i: nat)
    requires |data| % 4 == 0 && i % 4 == 0 && i + 4 <= |data|
    ensures forall j :: i <= j < i + 4 ==>
              j % 4 == j - i && j / 4 == i / 4
              && (IsBlackAt(data, j) <==> data[i] == 0 && data[i + 1] == 0 && data[i + 2] == 0)
  {
    forall j | i <= j < i + 4
      ensures j % 4 == j - i && j / 4 == i / 4 && j - j % 4 == i
    {
    }
  }

  /** Recolours the pixel at byte `i`: its red, green and blue bytes get the
      clamped shade, every other byte stays. */
  function PaintPixel(out: seq<byte>, i: nat, width: nat, start: Rgb, end: Rgb, shade: Shade)
    : (o: seq<byte>)
    requires width > 0 && i % 4 == 0 && i + 4 <= |out|
    ensures |o| == |out|
    ensures forall j :: 0 <= j < |out| && !(i <= j < i + 3) ==> o[j] == out[j]
    ensures forall j :: i <= j < i + 3 ==> o[j] == ShadeByte(shade, start, end, width, j)
  {
    var c := shade(start, end, (i / 4) % width, (i / 4) / width);
    assert (i + 1) / 4 == i / 4 && (i + 1) % 4 == 1;
    assert (i + 2) / 4 == i / 4 && (i + 2) % 4 == 2;
    out[i := Clamp(c.0)][i + 1 := Clamp(c.1)][i + 2 := Clamp(c.2)]
  }

  /** The byte `j` of the recoloured buffer: the clamped shade for a colour
      byte of a black pixel, the original byte otherwise. */
  function Recoloured(data: seq<byte>, j: nat, width: nat, start: Rgb, end: Rgb, shade: Shade): byte
    requires |data| % 4 == 0 && j < |data|
  {
    if j % 4 != 3 && IsBlackAt(data, j) && width > 0 then ShadeByte(shade, start, end, width, j)
    else data[j]
  }

  /** The first `i` bytes of `out` are recoloured and the rest untouched. */
  predicate RecolouredUpTo(data: seq<byte>, out: seq<byte>, i: nat, width: nat,
                           start: Rgb, end: Rgb, shade: Shade)
    requires |data| % 4 == 0
  {
    && |out| == |data| && i <= |data|
    && (forall j :: 0 <= j < i ==> out[j] == Recoloured(data, j, width, start, end, shade))
    && (forall j :: i <= j < |data| ==> out[j] == data[j])
  }

  /** One pass of the loop body recolours one more pixel. */
  lemma RecolourStep(data: seq<byte>, out: seq<byte>, i: nat, width: nat,
                     start: Rgb, end: Rgb, shade: Shade)
    requires IsImage(data, width) && i % 4 == 0 && i < |data|
    requires RecolouredUpTo(data, out, i, width, start, end, shade)
    ensures var next := if out[i] == 0 && out[i + 1] == 0 && out[i + 2] == 0
                        then PaintPixel(out, i, width, start, end, shade) else out;
            RecolouredUpTo(data, next, i + 4, width, start, end, shade)
  {
    SamePixel(data, i);
  }

  /** The loop of `applyGradientEffect` once both colours have been read. */
  method Recolour(data: seq<byte>, width: nat, start: Rgb, end: Rgb, shade: Shade)
    returns (out: seq<byte>)
    requires IsImage(data, width)
    ensures |out| == |data|
    ensures forall j :: 0 <= j < |data| && (j % 4 == 3 || !IsBlackAt(data, j)) ==> out[j] == data[j]
    ensures forall j :: 0 <= j < |data| && j % 4 != 3 && IsBlackAt(data, j) ==>
              width > 0 && out[j] == ShadeByte(shade, start, end, width, j)
  {
    out := data;
    var i := 0;
    while i < |out|
      invariant i % 4 == 0
      invariant RecolouredUpTo(data, out, i, width, start, end, shade)
    {
      RecolourStep(data, out, i, width, start, end, shade);
      if out[i] == 0 && out[i + 1] == 0 && out[i + 2] == 0 {
        out := PaintPixel(out, i, width, start, end, shade);
      }
      i := i + 4;
    }
    assert forall j :: 0 <= j < |data| ==> out[j] == Recoloured(data, j, width, start, end, shade);
  }

  /** The properties every JavaScript object inherits from
      `Object.prototype`. Looking one of them up in the preset object gives
      a truthy value that is not a string and has no `start` or `end`. */
  const ObjectPrototypeNames: set<Str> := {
    "constructor", "hasOwnProperty", "isPrototypeOf", "propertyIsEnumerable",
    "toLocaleString", "toString", "valueOf", "__proto__",
    "__defineGetter__", "__defineSetter__", "__lookupGetter__", "__lookupSetter__"
  }

  /** What `this.gradientPresets[name]` yields. */
  datatype Lookup = Own(preset: Preset) | Inherited | Missing

  function LookupPreset(presets: map<Str, Preset>, name: Str): (l: Lookup)
    ensures l.Own? <==> name in presets
    ensures l.Own? ==> l.preset == presets[name]
    ensures l == Inherited <==> name !in presets && name in ObjectPrototypeNames
  {
    if name in presets then Own(presets[name])
    else if name in ObjectPrototypeNames then Inherited
    else Missing
  }

  /** The lookup gives a gradient whose `start` or `end` does not parse:
      an own entry with a bad colour, or an inherited property, whose
      `start` and `end` are undefined (`hexToRgb(undefined)` is null). */
  predicate BadGradient(presets: map<Str, Preset>, name: Str) {
    || (name in presets && presets[name].GradientPreset?
        && (HexToRgb(presets[name].start).None? || HexToRgb(presets[name].end).None?))
    || (name !in presets && name in ObjectPrototypeNames)
  }

  /** What `applyGradientEffect` leaves in the canvas, or the TypeError it
      throws when a preset colour does not parse and a dark pixel is met
      (the canvas is then left as it was). */
  datatype Outcome = Painted(data: seq<byte>) | ColourError

  method ApplyGradientEffect(presets: map<Str, Preset>, name: Str, data: seq<byte>,
                             width: nat, shade: Shade)
    returns (r: Outcome)
    requires IsImage(data, width)
    ensures name !in presets && name !in ObjectPrototypeNames ==> r == Painted(data)
    ensures name in presets && presets[name].SolidPreset? ==> r == Painted(data)
    ensures r == ColourError <==> BadGradient(presets, name) && HasBlackPixel(data)
    ensures r.Painted? ==> |r.data| == |data|
    ensures r.Painted? ==> forall j :: 0 <= j < |data| && (j % 4 == 3 || !IsBlackAt(data, j)) ==>
              r.data[j] == data[j]
    ensures r.Painted? && name in presets && presets[name].GradientPreset?
            && HexToRgb(presets[name].start).Some? && HexToRgb(presets[name].end).Some? ==>
              forall j :: 0 <= j < |data| && j % 4 != 3 && IsBlackAt(data, j) ==>
                width > 0 && r.data[j] == ShadeByte(shade, HexToRgb(presets[name].start).value,
                                                    HexToRgb(presets[name].end).value, width, j)
  {
    var found := LookupPreset(presets, name);
    if found == Missing || (found.Own? && found.preset.SolidPreset?) {
      return Painted(data);
    }
    var start: Option<Rgb>, end: Option<Rgb> := None, None;
    if found.Own? {
      start, end := HexToRgb(found.preset.start), HexToRgb(found.preset.end);
    }
    if start.None? || end.None? {
      if HasBlackPixel(data) {
        return ColourError;
      }
      return Painted(data);
    }
    var out := Recolour(data, width, start.value, end.value, shade);
    return Painted(out);
  }

  /** A `#` followed by six hex digits parses. */
  lemma SharpColourParses(s: Str)
    requires |s| == 7 && s[0] == '#'
    requires IsHexDigit(s[1]) && IsHexDigit(s[2]) && IsHexDigit(s[3])
    requires IsHexDigit(s[4]) && IsHexDigit(s[5]) && IsHexDigit(s[6])
    ensures HexToRgb(s).Some?
  {
    forall k | 0 <= k < 6 ensures IsHexDigit(s[1..][k]) {
      assert s[1..][k] == s[k + 1];
    }
  }

  /** The colours of a preset all parse. */
  predicate PresetParses(p: Preset) {
    match p
    case SolidPreset(c) => HexToRgb(c).Some?
    case GradientPreset(a, b) => HexToRgb(a).Some? && HexToRgb(b).Some?
  }

  /** Each distinct entry of the preset table parses. */
  lemma TableEntriesParse()
    ensures PresetParses(SolidPreset("#000000"))
    ensures PresetParses(GradientPreset("#667eea", "#764ba2"))
    ensures PresetParses(GradientPreset("#f093fb", "#f5576c"))
    ensures PresetParses(GradientPreset("#56ab2f", "#a8e6cf"))
    ensures PresetParses(GradientPreset("#ff9a9e", "#fecfef"))
  {
    SharpColourParses("#000000");
    SharpColourParses("#667eea");
    SharpColourParses("#764ba2");
    SharpColourParses("#f093fb");
    SharpColourParses("#f5576c");
    SharpColourParses("#56ab2f");
    SharpColourParses("#a8e6cf");
    SharpColourParses("#ff9a9e");
    SharpColourParses("#fecfef");
  }

  /** Every colour of the preset table parses, so recolouring with one of
      the widget's own presets never throws. */
  lemma PresetColoursParse(name: Str)
    requires name in Presets
    ensures Presets[name].SolidPreset? ==> HexToRgb(Presets[name].colour).Some?
    ensures Presets[name].GradientPreset? ==>
              HexToRgb(Presets[name].start).Some? && HexToRgb(Presets[name].end).Some?
  {
    TableEntriesParse();
    assert PresetParses(Presets[name]);
  }
}

=== FILE: sanitize.dfy ===
/** The edit-time sanitizers of the ID and phone fields (`validateDNI`,
    `validateWhatsAppNumber`): both strip every non-digit and cut the
    result to a maximum length. */
module Sanitize {
  import opened Strings

  /** A Peruvian national ID (DNI) has eight digits. */
  const DniLength: nat := 8

  /** Country codes whose WhatsApp numbers have ten digits; every other code
      is given nine. The same table bounds the number while it is typed and
      sets the minimum length when the link is formatted. */
  predicate IsTenDigitCountry(code: Str) {
    code == "+1" || code == "+52" || code == "+54"
  }

  function PhoneDigits(code: Str): (n: nat)
    ensures n == 10 || n == 9
  {
    if IsTenDigitCountry(code) then 10 else 9
  }

  /** The ID field after an edit: its digits, at most eight of them. */
  function ValidateDni(input: Str): (r: Str)
    ensures AllDigits(r)
    ensures |r| <= DniLength
    ensures StartsWith(DigitsOf(input), r)
    ensures |r| == if |DigitsOf(input)| <= DniLength then |DigitsOf(input)| else DniLength
  {
    DigitsOfAreDigits(input);
    Take(DigitsOf(input), DniLength)
  }

  /** The phone field after an edit, for the selected country code: its
      digits, at most PhoneDigits(code) of them. */
  function ValidateWhatsAppNumber(input: Str, code: Str): (r: Str)
    ensures AllDigits(r)
    ensures |r| <= PhoneDigits(code)
    ensures |r| <= 10
    ensures StartsWith(DigitsOf(input), r)
    ensures |r| == if |DigitsOf(input)| <= PhoneDigits(code) then |DigitsOf(input)| else PhoneDigits(code)
  {
    DigitsOfAreDigits(input);
    Take(DigitsOf(input), PhoneDigits(code))
  }

  /** Keeping the first `n` digits twice is keeping them once with the
      smaller bound. */
  lemma {:induction false} TakeDigitsTwice(input: Str, m: nat, n: nat)
    ensures Take(DigitsOf(Take(DigitsOf(input), m)), n)
            == Take(DigitsOf(input), if m <= n then m else n)
  {
    var d := DigitsOf(input);
    DigitsOfAreDigits(input);
    var t := Take(d, m);
    assert AllDigits(t);
    DigitsOfFixed(t);
  }

  /** Editing the ID field again without new input changes nothing. */
  lemma ValidateDniIdempotent(input: Str)
    ensures ValidateDni(ValidateDni(input)) == ValidateDni(input)
  {
    TakeDigitsTwice(input, DniLength, DniLength);
  }

  /** The ID field is a fixed point of the sanitizer exactly when it holds
      at most eight digits and nothing else. */
  lemma ValidateDniFixedPoints(s: Str)
    ensures ValidateDni(s) == s <==> AllDigits(s) && |s| <= DniLength
  {
    DigitsOfFixed(s);
    DigitsOfAreDigits(s);
  }

  lemma ValidateWhatsAppNumberIdempotent(input: Str, code: Str)
    ensures ValidateWhatsAppNumber(ValidateWhatsAppNumber(input, code), code)
            == ValidateWhatsAppNumber(input, code)
  {
    TakeDigitsTwice(input, PhoneDigits(code), PhoneDigits(code));
  }

  /** A number typed under one country code and sanitized again under
      another keeps the first min(PhoneDigits(a), PhoneDigits(b)) digits. */
  lemma ValidateWhatsAppNumberTwoCountries(input: Str, a: Str, b: Str)
    ensures ValidateWhatsAppNumber(ValidateWhatsAppNumber(input, a), b)
            == Take(DigitsOf(input), if PhoneDigits(a) <= PhoneDigits(b) then PhoneDigits(a) else PhoneDigits(b))
  {
    TakeDigitsTwice(input, PhoneDigits(a), PhoneDigits(b));
  }

  /** Sanitizing distributes over typing: the digits of `typed + more` are
      those of `typed` followed by those of `more`, cut to the bound. */
  lemma ValidateDniAppend(typed: Str, more: Str)
    ensures ValidateDni(typed + more) == Take(DigitsOf(typed) + DigitsOf(more), DniLength)
  {
    DigitsOfConcat(typed, more);
  }
}

=== FILE: strings.dfy ===
/** String helpers shared by the QR widget model.

    A JavaScript string is modelled as a sequence of `char`. For text in the
    Basic Multilingual Plane `|s|` is JavaScript's `s.length`; a character
    beyond it is one `char` here but two UTF-16 code units there. */
module Strings {

  type Str = seq<char>

  datatype Option<+T> = None | Some(value: T)

  /** ASCII digit, the class `\d` of a JavaScript regular expression. */
  predicate IsDigit(c: char) {
    '0' <= c <= '9'
  }

  predicate AllDigits(s: Str) {
    forall i :: 0 <= i < |s| ==> IsDigit(s[i])
  }

  /** The characters `String.prototype.trim` removes: WhiteSpace and
      LineTerminator of ECMAScript (sections 12.2 and 12.3 of ECMA-262). */
  predicate IsBlank(c: char) {
    var n := c as int;
    n == 0x09 || n == 0x0A || n == 0x0B || n == 0x0C || n == 0x0D || n == 0x20
    || n == 0xA0 || n == 0x1680 || (0x2000 <= n <= 0x200A)
    || n == 0x2028 || n == 0x2029 || n == 0x202F || n == 0x205F
    || n == 0x3000 || n == 0xFEFF
  }

  predicate AllBlank(s: Str) {
    forall i :: 0 <= i < |s| ==> IsBlank(s[i])
  }

  /** Neither the first nor the last character is blank. */
  predicate NoEdgeBlank(s: Str) {
    s == [] || (!IsBlank(s[0]) && !IsBlank(s[|s| - 1]))
  }

  /** The end of the run of blanks that starts at `i`. */
  function SkipBlanks(s: Str, i: nat): (j: nat)
    requires i <= |s|
    ensures i <= j <= |s|
    ensures forall k :: i <= k < j ==> IsBlank(s[k])
    ensures j == |s| || !IsBlank(s[j])
    decreases |s| - i
  {
    if i < |s| && IsBlank(s[i]) then SkipBlanks(s, i + 1) else i
  }

  /** The start of the run of blanks that ends at `j`, going no lower than
      `lo`. */
  function SkipBlanksBack(s: Str, lo: nat, j: nat): (i: nat)
    requires lo <= j <= |s|
    ensures lo <= i <= j
    ensures forall k :: i <= k < j ==> IsBlank(s[k])
    ensures i == lo || !IsBlank(s[i - 1])
    decreases j
  {
    if lo < j && IsBlank(s[j - 1]) then SkipBlanksBack(s, lo, j - 1) else j
  }

  /** Where the trimmed piece starts and ends in its input. */
  function TrimOffset(s: Str): nat {
    SkipBlanks(s, 0)
  }

  function TrimEndOffset(s: Str): (j: nat)
    ensures TrimOffset(s) <= j <= |s|
  {
    SkipBlanksBack(s, TrimOffset(s), |s|)
  }

  /** `String.prototype.trim`: leading blanks are skipped, then trailing
      blanks down to where the leading ones stopped. */
  function Trim(s: Str): Str {
    s[TrimOffset(s)..TrimEndOffset(s)]
  }

  /** `r` is `s` with a blank prefix and a blank suffix cut off. */
  ghost predicate IsBlankFramed(r: Str, s: Str) {
    exists i :: 0 <= i <= |s| - |r| && s[i..i + |r|] == r && AllBlank(s[..i]) && AllBlank(s[i + |r|..])
  }

  /** Trim keeps a contiguous piece of its input, cut only at blanks, and
      leaves no blank at either end. */
  lemma TrimSound(s: Str)
    ensures NoEdgeBlank(Trim(s))
    ensures IsBlankFramed(Trim(s), s)
  {
    var i := TrimOffset(s);
    var j := TrimEndOffset(s);
    var r := Trim(s);
    if i < j {
      assert r[0] == s[i];
      assert r[|r| - 1] == s[j - 1];
    }
    assert AllBlank(s[..i]) by {
      forall k | 0 <= k < i ensures IsBlank(s[..i][k]) {
        assert s[..i][k] == s[k];
      }
    }
    assert AllBlank(s[j..]) by {
      forall k | 0 <= k < |s| - j ensures IsBlank(s[j..][k]) {
        assert s[j..][k] == s[j + k];
      }
    }
    Framed(r, s, i);
  }

  lemma Framed(r: Str, s: Str, i: nat)
    requires i + |r| <= |s| && s[i..i + |r|] == r
    requires AllBlank(s[..i]) && AllBlank(s[i + |r|..])
    ensures IsBlankFramed(r, s)
  {
  }

  /** SkipBlanks stops at the first character that is not blank. */
  lemma {:induction false} SkipBlanksTo(s: Str, i: nat, m: nat)
    requires i <= m <= |s|
    requires forall k :: i <= k < m ==> IsBlank(s[k])
    requires m == |s| || !IsBlank(s[m])
    ensures SkipBlanks(s, i) == m
    decreases m - i
  {
    if i < m {
      SkipBlanksTo(s, i + 1, m);
    }
  }

  lemma {:induction false} SkipBlanksBackTo(s: Str, lo: nat, j: nat, m: nat)
    requires lo <= m <= j <= |s|
    requires forall k :: m <= k < j ==> IsBlank(s[k])
    requires m == lo || !IsBlank(s[m - 1])
    ensures SkipBlanksBack(s, lo, j) == m
    decreases j - m
  {
    if m < j {
      SkipBlanksBackTo(s, lo, j - 1, m);
    }
  }

  /** Conversely, a blank-framed piece without edge blanks is the trim:
      together with TrimSound this characterises Trim. */
  lemma {:induction false} TrimUnique(a: Str, r: Str, b: Str)
    requires AllBlank(a) && AllBlank(b) && NoEdgeBlank(r)
    ensures Trim(a + r + b) == r
  {
    var x := a + r + b;
    if r == [] {
      assert forall k :: 0 <= k < |x| ==> IsBlank(x[k]) by {
        forall k | 0 <= k < |x| ensures IsBlank(x[k]) {
          if k < |a| { assert x[k] == a[k]; } else { assert x[k] == b[k - |a|]; }
        }
      }
      SkipBlanksTo(x, 0, |x|);
      SkipBlanksBackTo(x, |x|, |x|, |x|);
    } else {
      var m := |a| + |r|;
      assert forall k :: 0 <= k < |a| ==> IsBlank(x[k]) by {
        forall k | 0 <= k < |a| ensures IsBlank(x[k]) {
          assert x[k] == a[k];
        }
      }
      assert x[|a|] == r[0];
      SkipBlanksTo(x, 0, |a|);
      assert forall k :: m <= k < |x| ==> IsBlank(x[k]) by {
        forall k | m <= k < |x| ensures IsBlank(x[k]) {
          assert x[k] == b[k - m];
        }
      }
      assert x[m - 1] == r[|r| - 1];
      SkipBlanksBackTo(x, |a|, |x|, m);
      assert x[|a|..m] == r;
    }
  }

  lemma TrimIdempotent(s: Str)
    ensures Trim(Trim(s)) == Trim(s)
  {
    TrimSound(s);
    var r := Trim(s);
    assert [] + r + [] == r;
    TrimUnique([], r, []);
  }

  /** A string of digits has nothing to trim. */
  lemma TrimDigits(s: Str)
    requires AllDigits(s)
    ensures Trim(s) == s
  {
    assert [] + s + [] == s;
    TrimUnique([], s, []);
  }

  lemma NotInDigits(s: Str, c: char)
    requires AllDigits(s) && !IsDigit(c)
    ensures c !in s
  {
  }

  /** The digits of `s` in their order: `s.replace(/\D/g, '')`. */
  function DigitsOf(s: Str): Str
  {
    if s == [] then []
    else (if IsDigit(s[0]) then [s[0]] else []) + DigitsOf(s[1..])
  }

  /** The laws that determine DigitsOf: its result is all digits, it
      distributes over concatenation (so the order of the digits is kept),
      a string of digits is left as it is, and a single non-digit is
      dropped (DigitsOfSingle). */
  lemma {:induction false} DigitsOfAreDigits(s: Str)
    ensures AllDigits(DigitsOf(s))
    ensures |DigitsOf(s)| <= |s|
  {
    if s != [] {
      DigitsOfAreDigits(s[1..]);
    }
  }

  /** One character: a digit is kept, anything else is dropped. */
  lemma DigitsOfSingle(c: char)
    ensures DigitsOf([c]) == (if IsDigit(c) then [c] else [])
  {
    assert [c][1..] == [];
  }

  lemma {:induction false} DigitsOfConcat(a: Str, b: Str)
    ensures DigitsOf(a + b) == DigitsOf(a) + DigitsOf(b)
  {
    if a == [] {
      assert a + b == b;
    } else {
      var ab := a + b;
      assert ab[0] == a[0];
      assert ab[1..] == a[1..] + b;
      DigitsOfConcat(a[1..], b);
      var h := if IsDigit(a[0]) then [a[0]] else [];
      assert DigitsOf(ab) == h + DigitsOf(a[1..] + b);
      assert DigitsOf(a) == h + DigitsOf(a[1..]);
    }
  }

  lemma {:induction false} DigitsOfFixed(s: Str)
    ensures DigitsOf(s) == s <==> AllDigits(s)
  {
    if s != [] {
      DigitsOfFixed(s[1..]);
      DigitsOfAreDigits(s[1..]);
      if !IsDigit(s[0]) {
        assert DigitsOf(s) != s;
      }
    }
  }

  /** The regular-expression scan of `replace(/\D/g, '')`, one character at
      a time. */
  method StripNonDigits(s: Str) returns (r: Str)
    ensures r == DigitsOf(s)
    ensures AllDigits(r)
  {
    r := [];
    var i := 0;
    while i < |s|
      invariant 0 <= i <= |s|
      invariant r == DigitsOf(s[..i])
    {
      DigitsOfConcat(s[..i], [s[i]]);
      assert s[..i + 1] == s[..i] + [s[i]];
      if IsDigit(s[i]) {
        r := r + [s[i]];
      }
      i := i + 1;
    }
    assert s[..i] == s;
    DigitsOfAreDigits(s);
  }

  /** `s.slice(0, n)`: the first `n` characters, or all of `s` if shorter. */
  function Take(s: Str, n: nat): (r: Str)
    ensures |r| == if |s| <= n then |s| else n
    ensures r == s[..|r|]
  {
    if |s| <= n then s else s[..n]
  }

  /** `s.replace('+', '')`: the first `+`, if any, is removed. */
  function RemoveFirstPlus(s: Str): Str
  {
    if s == [] then []
    else if s[0] == '+' then s[1..]
    else [s[0]] + RemoveFirstPlus(s[1..])
  }

  /** The first `+` is cut out and everything else is kept in order. */
  lemma {:induction false} RemoveFirstPlusSpec(s: Str)
    ensures IndexOf(s, '+').None? ==> RemoveFirstPlus(s) == s
    ensures IndexOf(s, '+').Some? ==>
              var i := IndexOf(s, '+').value; RemoveFirstPlus(s) == s[..i] + s[i + 1..]
  {
    if s != [] && s[0] != '+' {
      RemoveFirstPlusSpec(s[1..]);
      if IndexOf(s[1..], '+').Some? {
        var k := IndexOf(s[1..], '+').value;
        assert s[..k + 1] == [s[0]] + s[1..][..k];
        assert s[k + 2..] == s[1..][k + 1..];
      }
    }
  }

  predicate StartsWith(s: Str, p: Str) {
    |p| <= |s| && s[..|p|] == p
  }

  lemma PrefixStarts(p: Str, s: Str)
    ensures StartsWith(p + s, p)
  {
    assert (p + s)[..|p|] == p;
  }

  /** Index of the first `c` in `s`. */
  function IndexOf(s: Str, c: char): (r: Option<nat>)
    ensures r.None? <==> c !in s
    ensures r.Some? ==> r.value < |s| && s[r.value] == c && c !in s[..r.value]
  {
    if s == [] then None
    else if s[0] == c then Some(0)
    else match IndexOf(s[1..], c)
      case None => None
      case Some(k) =>
        assert s[..k + 1] == [s[0]] + s[1..][..k];
        Some(k + 1)
  }
}

=== FILE: widget.dfy ===
/** The widget state of `QRGenerator` and the handlers that change it: the
    form edits with their sanitizers, `generateQR` with its content gate,
    and the per-type result cache `qrStorage` kept by `saveCurrentQRData`,
    `switchQRType`, `restoreQRData`, `displayQR` and `clearQR`. */
module Widget {
  import opened Strings
  import opened Sanitize
  import opened Content
  import FormFacts

  /** One entry of `qrStorage`: the content last shown for a type and the
      data URL of its image (`null` is None). */
  datatype Slot = Slot(content: Str, dataUrl: Option<Str>)

  const EmptySlot: Slot := Slot([], None)

  /** The part of the widget the handlers read and write. `currentUrl` is
      `currentQRDataURL`; `shown` is the text of the content display. */
  datatype State = State(
    form: Form,
    current: ContentType,
    currentUrl: Option<Str>,
    storage: map<ContentType, Slot>,
    shown: Str)

  /** JavaScript truthiness of a data URL. */
  predicate Truthy(u: Option<Str>) {
    u.Some? && u.value != []
  }

  /** The test `restoreQRData` applies to a slot. */
  predicate HasImage(slot: Slot) {
    slot.content != [] && Truthy(slot.dataUrl)
  }

  /** What the handlers keep true: every type has a slot, and the ID and
      phone fields hold only what their sanitizers let through. */
  predicate Valid(s: State) {
    && (forall t: ContentType :: t in s.storage)
    && FormFacts.SanitizedForm(s.form)
  }

  /** The widget as the constructor leaves it. */
  function Initial(): (s: State)
    ensures Valid(s)
    ensures s.current == Text && s.currentUrl == None && s.shown == []
    ensures forall t: ContentType :: s.storage[t] == EmptySlot
    ensures forall t: ContentType :: !HasImage(s.storage[t])
  {
    var storage := map[Text := EmptySlot, WhatsApp := EmptySlot, Dni := EmptySlot,
                       Url := EmptySlot, Email := EmptySlot];
    EveryTypeHasSlot(storage);
    State(Form([], [], "+51", [], [], [], []), Text, None, storage, [])
  }

  lemma EveryTypeHasSlot(m: map<ContentType, Slot>)
    requires Text in m && WhatsApp in m && Dni in m && Url in m && Email in m
    ensures forall t: ContentType :: t in m
  {
    forall t: ContentType ensures t in m {
      match t
      case Text => case WhatsApp => case Dni => case Url => case Email =>
    }
  }

  const DisplayLimit: nat := 50
  const Ellipsis: Str := "..."

  /** The content display: the first 50 characters, then `...` if any were
      cut. */
  function DisplayText(content: Str): (r: Str)
    ensures |content| <= DisplayLimit ==> r == content
    ensures |content| > DisplayLimit ==> |r| == DisplayLimit + |Ellipsis|
    ensures StartsWith(r, Take(content, DisplayLimit))
    ensures |content| > DisplayLimit ==> r[DisplayLimit..] == Ellipsis
  {
    if |content| > DisplayLimit then content[..DisplayLimit] + Ellipsis else content
  }

  /** The display shows the content itself exactly when nothing was cut,
      or when the 50 kept characters followed by `...` happen to spell the
      whole content. */
  lemma DisplayTextUnchanged(content: Str)
    ensures DisplayText(content) == content <==>
              |content| <= DisplayLimit
              || (|content| == DisplayLimit + |Ellipsis| && content[DisplayLimit..] == Ellipsis)
  {
    if |content| > DisplayLimit {
      var r := DisplayText(content);
      if r == content {
        assert content[DisplayLimit..] == r[DisplayLimit..];
      }
      if |content| == DisplayLimit + |Ellipsis| && content[DisplayLimit..] == Ellipsis {
        assert content == content[..DisplayLimit] + content[DisplayLimit..];
      }
    }
  }

  /** `clearQRDisplay`. */
  function ClearQRDisplay(s: State): (r: State)
    ensures r.currentUrl == None && r.shown == []
    ensures r.storage == s.storage && r.form == s.form && r.current == s.current
  {
    s.(currentUrl := None, shown := [])
  }

  /** `saveCurrentQRData`: stores the current form's content with the
      current image under the current type, when both are present. */
  function SaveCurrentQRData(s: State, enc: UriEncoder): (r: State)
    requires Valid(s)
    ensures Valid(r)
    ensures r.form == s.form && r.current == s.current && r.currentUrl == s.currentUrl && r.shown == s.shown
    ensures var c := GetQRContent(s.current, s.form, enc);
            r.storage == if c != [] && Truthy(s.currentUrl)
                         then s.storage[s.current := Slot(c, s.currentUrl)]
                         else s.storage
    ensures forall t: ContentType :: t != s.current ==> r.storage[t] == s.storage[t]
    ensures HasImage(r.storage[s.current]) <==>
              HasImage(s.storage[s.current])
              || (GetQRContent(s.current, s.form, enc) != [] && Truthy(s.currentUrl))
  {
    var content := GetQRContent(s.current, s.form, enc);
    if content != [] && Truthy(s.currentUrl) then
      s.(storage := s.storage[s.current := Slot(content, s.currentUrl)])
    else
      s
  }

  /** `restoreQRData`: shows the stored image of a type, or clears the
      display when its slot lacks content or image. */
  function RestoreQRData(s: State, t: ContentType): (r: State)
    requires Valid(s)
    ensures Valid(r)
    ensures r.storage == s.storage && r.form == s.form && r.current == s.current
    ensures HasImage(s.storage[t]) ==> r.currentUrl == s.storage[t].dataUrl
    ensures HasImage(s.storage[t]) ==> r.shown == DisplayText(s.storage[t].content)
    ensures !HasImage(s.storage[t]) ==> r.currentUrl == None && r.shown == []
    ensures Truthy(r.currentUrl) <==> HasImage(s.storage[t])
  {
    var slot := s.storage[t];
    if HasImage(slot) then
      s.(currentUrl := slot.dataUrl, shown := DisplayText(slot.content))
    else
      ClearQRDisplay(s)
  }

  /** `switchQRType`: save under the old type, then restore the new one. */
  function SwitchQRType(s: State, t: ContentType, enc: UriEncoder): (r: State)
    requires Valid(s)
    ensures Valid(r)
    ensures r.current == t && r.form == s.form
    ensures forall u: ContentType :: u != s.current ==> r.storage[u] == s.storage[u]
    ensures r.storage[s.current] == SaveCurrentQRData(s, enc).storage[s.current]
    ensures Truthy(r.currentUrl) <==> HasImage(r.storage[t])
    ensures HasImage(r.storage[t]) ==> r.currentUrl == r.storage[t].dataUrl
    ensures HasImage(r.storage[t]) ==> r.shown == DisplayText(r.storage[t].content)
    ensures !HasImage(r.storage[t]) ==> r.currentUrl == None && r.shown == []
  {
    RestoreQRData(SaveCurrentQRData(s, enc).(current := t), t)
  }

  /** `displayQR`: the new image becomes the current type's slot. */
  function DisplayQR(s: State, content: Str): (r: State)
    requires Valid(s)
    ensures Valid(r)
    ensures r.storage[s.current] == Slot(content, s.currentUrl)
    ensures forall t: ContentType :: t != s.current ==> r.storage[t] == s.storage[t]
    ensures r.form == s.form && r.current == s.current && r.currentUrl == s.currentUrl
    ensures r.shown == DisplayText(content)
  {
    s.(storage := s.storage[s.current := Slot(content, s.currentUrl)],
       shown := DisplayText(content))
  }

  /** What `generateQR` reports. */
  datatype Notice = Rendered | NoContentError | TooLongError | RenderError

  /** `generateQR`. `render` is the data URL of the finished image for the
      current content, or None when the encoder or the recolouring throws. */
  function GenerateQR(s: State, enc: UriEncoder, render: Option<Str>): (res: (State, Notice))
    requires Valid(s)
    ensures Valid(res.0)
    ensures res.0.form == s.form && res.0.current == s.current
    ensures res.1 == Rendered <==>
              0 < |GetQRContent(s.current, s.form, enc)| <= MaxContentLength && render.Some?
    ensures res.1 != Rendered ==> res.0.storage == s.storage
    ensures res.1 == NoContentError ==> res.0.currentUrl == None && res.0.shown == []
    ensures res.1 == TooLongError || res.1 == RenderError ==> res.0 == s
    ensures res.1 == Rendered ==>
              && res.0.storage[s.current] == Slot(GetQRContent(s.current, s.form, enc), render)
              && res.0.currentUrl == render
              && res.0.shown == DisplayText(GetQRContent(s.current, s.form, enc))
              && (forall t: ContentType :: t != s.current ==> res.0.storage[t] == s.storage[t])
  {
    var content := GetQRContent(s.current, s.form, enc);
    match CheckContent(content)
    case NoContent => (ClearQRDisplay(s), NoContentError)
    case TooLong => (s, TooLongError)
    case Ready(c) =>
      match render
      case None => (s, RenderError)
      case Some(url) => (DisplayQR(s.(currentUrl := Some(url)), c), Rendered)
  }

  /** The debounced callback of `autoGenerate`, once its timer fires. */
  function AutoGenerateFire(s: State, enc: UriEncoder, render: Option<Str>): (r: State)
    requires Valid(s)
    ensures Valid(r)
    ensures GetQRContent(s.current, s.form, enc) == [] ==> r == ClearQRDisplay(s)
    ensures GetQRContent(s.current, s.form, enc) != [] ==> r == GenerateQR(s, enc, render).0
    ensures var c := GetQRContent(s.current, s.form, enc);
            c != [] && |c| <= MaxContentLength && render.Some? ==>
              r.storage[s.current] == Slot(c, render) && r.currentUrl == render
    ensures var c := GetQRContent(s.current, s.form, enc);
            c != [] && (|c| > MaxContentLength || render.None?) ==> r == s
  {
    if GetQRContent(s.current, s.form, enc) != [] then GenerateQR(s, enc, render).0
    else ClearQRDisplay(s)
  }

  /** `clearQR`: empties the current slot and the current type's fields. */
  function ClearQR(s: State): (r: State)
    requires Valid(s)
    ensures Valid(r)
    ensures r.currentUrl == None && r.shown == [] && r.current == s.current
    ensures r.storage[s.current] == EmptySlot
    ensures forall t: ContentType :: t != s.current ==> r.storage[t] == s.storage[t]
    ensures s.current != WhatsApp ==> r.form.number == s.form.number && r.form.message == s.form.message
    ensures s.current != Dni ==> r.form.dni == s.form.dni
    ensures s.current != Text ==> r.form.text == s.form.text
    ensures r.form.countryCode == s.form.countryCode
    ensures r.form.brandTop == s.form.brandTop && r.form.brandBottom == s.form.brandBottom
    ensures s.current == Text ==> r.form.text == []
    ensures s.current == Dni ==> r.form.dni == []
    ensures s.current == WhatsApp ==> r.form.number == [] && r.form.message == []
    ensures s.current == Url || s.current == Email ==> r.form == s.form
  {
    var f := s.form;
    var f' := match s.current
      case Text => f.(text := [])
      case Dni => f.(dni := [])
      case WhatsApp => f.(number := [], message := [])
      case Url => f
      case Email => f;
    State(f', s.current, None, s.storage[s.current := EmptySlot], [])
  }

  /** After `clearQR` the current type formats to nothing, whatever the
      encoder. */
  lemma ClearQREmptiesContent(s: State, enc: UriEncoder)
    requires Valid(s)
    ensures GetQRContent(s.current, ClearQR(s).form, enc) == []
  {
  }

  // The input handlers bound in `bindEvents`. Each also schedules
  // `autoGenerate`; the timer is not part of the model.

  /** An edit of the free-text field, stored as typed. */
  function InputText(s: State, value: Str): (r: State)
    requires Valid(s)
    ensures Valid(r)
    ensures r == s.(form := s.form.(text := value))
  {
    s.(form := s.form.(text := value))
  }

  /** An edit of the ID field, sanitized by `validateDNI`. */
  function InputDni(s: State, value: Str): (r: State)
    requires Valid(s)
    ensures Valid(r)
    ensures r.form.dni == ValidateDni(value)
    ensures r == s.(form := s.form.(dni := ValidateDni(value)))
  {
    s.(form := s.form.(dni := ValidateDni(value)))
  }

  /** An edit of the phone field, sanitized by `validateWhatsAppNumber`
      under the selected country code. */
  function InputNumber(s: State, value: Str): (r: State)
    requires Valid(s)
    ensures Valid(r)
    ensures r.form.number == ValidateWhatsAppNumber(value, s.form.countryCode)
    ensures r == s.(form := s.form.(number := ValidateWhatsAppNumber(value, s.form.countryCode)))
  {
    s.(form := s.form.(number := ValidateWhatsAppNumber(value, s.form.countryCode)))
  }

  /** An edit of the message field, stored as typed. */
  function InputMessage(s: State, value: Str): (r: State)
    requires Valid(s)
    ensures Valid(r)
    ensures r == s.(form := s.form.(message := value))
  {
    s.(form := s.form.(message := value))
  }

  /** A change of the country selector: the phone field is not sanitized
      again. */
  function ChangeCountry(s: State, code: Str): (r: State)
    requires Valid(s)
    ensures Valid(r)
    ensures r.form.number == s.form.number
    ensures r == s.(form := s.form.(countryCode := code))
  {
    s.(form := s.form.(countryCode := code))
  }

  /** An edit of either caption field, stored as typed. */
  function InputCaptions(s: State, top: Str, bottom: Str): (r: State)
    requires Valid(s)
    ensures Valid(r)
    ensures r == s.(form := s.form.(brandTop := top, brandBottom := bottom))
  {
    s.(form := s.form.(brandTop := top, brandBottom := bottom))
  }

  /** A type whose form formats to content while an image is current gets
      that image back after switching away to any type and back. */
  lemma SwitchAwayAndBack(s: State, other: ContentType, enc: UriEncoder)
    requires Valid(s)
    requires GetQRContent(s.current, s.form, enc) != [] && Truthy(s.currentUrl)
    ensures var back := SwitchQRType(SwitchQRType(s, other, enc), s.current, enc);
            && back.current == s.current
            && back.currentUrl == s.currentUrl
            && back.storage[s.current] == Slot(GetQRContent(s.current, s.form, enc), s.currentUrl)
  {
    var s1 := SwitchQRType(s, other, enc);
    var saved := SaveCurrentQRData(s, enc);
    assert saved.storage[s.current] == Slot(GetQRContent(s.current, s.form, enc), s.currentUrl);
    if other != s.current {
      assert s1.storage[s.current] == saved.storage[s.current];
    }
  }

  /** Switching types never drops a stored image: only `clearQR` does. */
  lemma SwitchKeepsImages(s: State, t: ContentType, enc: UriEncoder, u: ContentType)
    requires Valid(s)
    requires HasImage(s.storage[u])
    ensures HasImage(SwitchQRType(s, t, enc).storage[u])
  {
  }

  /** The country selector does not sanitize the phone field again, so a
      ten-digit number typed under +1 still formats under +51, whose
      numbers have nine digits: the link check is a minimum, not an exact
      count. */
  lemma LongNumberPassesAfterCountryChange(s: State, enc: UriEncoder)
    requires Valid(s)
    ensures var s1 := ChangeCountry(InputNumber(ChangeCountry(s, "+1"), "5551234567"), "+51");
            && |s1.form.number| == 10 > PhoneDigits(s1.form.countryCode)
            && GetQRContent(WhatsApp, s1.form.(message := []), enc) == WaLink("51" + "5551234567", [])
  {
    var s1 := ChangeCountry(InputNumber(ChangeCountry(s, "+1"), "5551234567"), "+51");
    FormFacts.TenDigitsUnderUs();
    assert s1.form.number == "5551234567";
    FormFacts.UsNumberUnderPeru(s1.form.(message := []), enc);
  }

  /** A seven-digit ID formats to nothing, so `generateQR` renders no image. */
  lemma ShortDniRendersNothing(s: State, enc: UriEncoder, render: Option<Str>)
    requires Valid(s) && s.current == Dni && s.form.dni == "1234567"
    ensures GenerateQR(s, enc, render).1 == NoContentError
  {
    FormFacts.DniContentOfSanitizedForm(s.form, enc);
  }
}
